=== FILE: README.md ===
# Landing-page effects: a Dafny model

This project models the small pieces of discrete logic inside a marketing
landing page's client-side scripts, and proves properties about them:

- **Particle background** (`src/scripts/particles.js`). This covers:
  - how many particles a canvas gets;
  - the attribute ranges of a fresh particle;
  - the per-frame update, including the edge wrap of the home position;
  - the window events that set and clear the pointer;
  - `resize`, which rebuilds only a non-empty population;
  - the frame loop and `destroy`;
  - the all-pairs connection pass.
- **Loading screen** (`src/scripts/loading.js`). The progress counter is a
  state machine driven by animation frames and by the stage timers. The
  `TerminalTyping` typewriter is a second, smaller state machine.
- **Page state** (`src/scripts/main.js`). This covers:
  - the mobile menu toggle;
  - the `scrolled` threshold;
  - the portfolio filter, with its single active button and card visibility;
  - the `focused` marker on form inputs;
  - `clamp`.
- **Text reveal** (`src/scripts/animations.js`, `createTextReveal`): the
  map from an element's text to one hidden span per UTF-16 code unit.

Each piece is an immutable datatype with pure step functions. Anything
nondeterministic or host-provided is passed in as a parameter:
- random draws are values of the subset type `Unit = [0, 1)`, one `Draws`
  record per particle;
- `Math.sqrt` is a function `real -> NonNeg`;
- the direction `(cos θ, sin θ)` with `θ = Math.atan2(dy, dx)` is a function
  `heading`;
- timer and frame arrivals are events.

Positions and offsets are `real`, an idealisation of IEEE doubles. JavaScript
strings are sequences of UTF-16 code units (`JsText.JsString`), because
`split('')`, `charAt` and `length` work unit by unit.

Modules:
- `Wrappers`: `Option`, standing in for `null` and `undefined`.
- `Numbers`: `Math.min` on naturals.
- `JsText`: code units, `split` and `join`.
- `Particles`: the `Particle` class.
- `ParticleSystem`: the `ParticleSystem` class, the handle that
  `initParticles` stores, and `destroyParticles` on that handle.
- `LoadingScreen` and `TerminalTyping`: the two state machines in `loading.js`.
- `Navigation`, `PortfolioFilter`, `FormInputs` and `Utils`: the parts of
  `main.js` listed above.
- `TextReveal`: `createTextReveal`.

Notes on the code:
- The home position wraps into the closed range `[0, width] × [0, height]`.
  Both wrap tests are strict (`< 0`, `> width`), so a base of exactly `width`
  stays where it is.
- Particle opacity is drawn from `[0.2, 0.7)`.
- `animate()` runs once synchronously inside `init`. So a freshly built
  system has already run one frame.
- The first `type()` call of the typewriter also runs synchronously, in its
  constructor.

## Model

| member | source | states |
|---|---|---|
| `Particles.OrElse` | src/scripts/particles.js:10-16 | A constructor option is used only when present and non-zero; an absent option or an explicit 0 falls through to the random draw. |
| `Particles.PaletteIndex` | src/scripts/particles.js:24-31 | The colour index `floor(r * 3)` of a draw in [0, 1) is a valid palette index, and it is the floor of `3r`. |
| `Particles.NewParticle` | src/scripts/particles.js:6-22 | Home equals position. Each option that is present and non-zero wins, for position, size, both speeds, opacity and colour. Each absent option gives the drawn range: size [0.5, 2.5), speeds [-0.25, 0.25), opacity [0.2, 0.7), a palette colour, `x = r·width`. Density is always in [1, 31). |
| `Particles.Spawn` | src/scripts/particles.js:10-30 | A particle the system creates (no options) has every attribute in range, its home equal to its position, and its position inside the canvas, strictly below a positive width or height. |
| `Particles.Scaled` | src/scripts/particles.js:10-11 | `Math.random() * extent` lies in [0, extent], and strictly below a positive extent. |
| `Particles.ForceProfile` | src/scripts/particles.js:39-42 | Inside radius 150 the repulsion force is in (0, 1]. It is exactly 1 at distance 0 and strictly decreasing in the distance. |
| `Particles.Repel` | src/scripts/particles.js:35-47 | With the pointer absent (either coordinate null) or at distance ≥ 150, the position is unchanged. Closer than 150, the particle moves by `2·force` against the pointer's direction, with the force in (0, 1]. |
| `Particles.Wrap` | src/scripts/particles.js:59-63 | The wrapped home coordinate is always in [0, extent]. A value already inside is kept; below 0 it becomes the extent; beyond the extent it becomes 0. |
| `Particles.Update` | src/scripts/particles.js:33-64 | The new position is the repelled position moved 2% of the way back to the old home. The new home is the old home plus the speed, wrapped into [0, width] × [0, height]. Size, speeds, opacity, colour and density are unchanged, so the settled ranges are preserved. |
| `Particles.ReturnStep` | src/scripts/particles.js:35-53 | With the pointer absent or at distance ≥ 150, x and y change only by the 2% return step. The new position lies between the old position and the old home, and its distance to the old home shrinks to exactly 98%. |
| `ParticleSystem.ParticleCount` | src/scripts/particles.js:99-102 | The count never exceeds 150. It is the floor of area / 15000 whenever below the cap, and 0 when the area is below 15000. |
| `ParticleSystem.CountExamples` | src/scripts/particles.js:114-117 | 800×600 gives 32 particles, 1920×1080 gives 138, a 100×149 canvas gives 0, and a 4000×4000 canvas is capped at 150. |
| `ParticleSystem.SpawnAll` | src/scripts/particles.js:119-121 | The creation loop produces exactly `count` particles. The k-th is `new Particle(canvas)` from the k-th draws, so each is in the settled ranges with home equal to position. |
| `ParticleSystem.Resize` | src/scripts/particles.js:94-111 | The canvas takes the window size. A non-empty population is thrown away and replaced by exactly `ParticleCount` freshly spawned particles, the k-th from the k-th draws. An empty one stays empty. The pointer and the loop are untouched. |
| `ParticleSystem.CreateParticles` | src/scripts/particles.js:113-122 | `ParticleCount` freshly spawned particles, the k-th from the k-th draws, are appended after the existing ones, which are kept as they were. |
| `ParticleSystem.Populate` | src/scripts/particles.js:86-88 | `resize` and `createParticles` on a fresh system give the window size, a null pointer and the invariant. The particles are exactly `ParticleCount` fresh spawns, the k-th from the k-th draws. |
| `ParticleSystem.LinkDecides` | src/scripts/particles.js:161-173 | Checking one pair draws at most one line. It draws one exactly when the pair is closer than 120, and that line is the pair with opacity `(1 − d/120)·0.15`. |
| `ParticleSystem.LinkOpacityProfile` | src/scripts/particles.js:165-166 | Line opacity is 0.15 at distance 0 and 0 at 120. It is strictly decreasing in the distance, so every drawn line has opacity in (0, 0.15]. |
| `ParticleSystem.LinkByRoot` | src/scripts/particles.js:161-165 | For an exact square root, `distance < 120` holds iff the squared distance is below 14400. |
| `ParticleSystem.ConnectionsExactly` | src/scripts/particles.js:156-176 | The pass draws a line for exactly the pairs i < j closer than 120, with opacity `(1 − d/120)·0.15`. Each pair appears at most once, in (i, j) order, and every opacity is in (0, 0.15]. |
| `ParticleSystem.ConnectRow` | src/scripts/particles.js:160-174 | The inner loop for particle i checks each later partner once, in order, and draws exactly that row's lines. |
| `ParticleSystem.PairsBeforeClosed` | src/scripts/particles.js:159-160 | The rows before i run i(2n − i − 1)/2 distance checks, so all n rows run n(n−1)/2. |
| `ParticleSystem.ConnectParticles` | src/scripts/particles.js:156-176 | The two nested loops draw exactly the lines the pass specifies and run n(n−1)/2 distance checks. |
| `ParticleSystem.UpdateAll` | src/scripts/particles.js:182-185 | Updating every particle keeps the count, puts every home on the canvas, and keeps settled particles settled. |
| `ParticleSystem.Animate` | src/scripts/particles.js:178-191 | A frame runs only on a looping live system. It changes nothing but the particles: each one is replaced by its own `update` under the current pointer and canvas. It draws the connections of the updated positions and preserves the invariant. |
| `ParticleSystem.Construct` | src/scripts/particles.js:74-92 | Without the canvas the system is inert: no particles, no loop. Otherwise it has the window size, exactly `ParticleCount` particles, a null pointer and a running loop, and it satisfies the invariant. Each particle is the k-th fresh spawn after one `update` with no pointer, because the first `animate()` runs synchronously. |
| `ParticleSystem.Handle` | src/scripts/particles.js:124-154 | Every handler writes both pointer coordinates together. `touchmove` reads only `touches[0]` and does nothing with no touches. A resize sets the window size, keeps the pointer, and replaces a non-empty population with fresh spawns of the new count. A frame keeps the pointer, changes nothing after `destroy`, and otherwise updates each particle. Only resize and frames touch the particles, only resize changes the canvas size, and only `destroy` stops the loop. Every event preserves the invariant, and an inert system ignores all events. |
| `ParticleSystem.RunWf` | src/scripts/particles.js:94-154 | Over any sequence of events, pointer coordinates stay paired, the population is empty or exactly the count for the canvas, and every home stays on the canvas with attributes in range. |
| `ParticleSystem.EmptyStaysEmpty` | src/scripts/particles.js:105-110 | A live system with no particles never gains any, whatever events follow. |
| `ParticleSystem.FrameWithoutPointer` | src/scripts/particles.js:35-53 | With no pointer on the page, a frame moves every particle exactly 2% of the way back to its home, never past it. |
| `ParticleSystem.DestroyedStaysStopped` | src/scripts/particles.js:193-197 | After `destroy` no frame runs again, whatever events follow. |
| `ParticleSystem.DestroyParticles` | src/scripts/particles.js:207-211 | With no system, `destroyParticles` is a no-op. On an inert system it changes nothing. On a live one it stops the loop and changes nothing else. |
| `JsText.Split` | src/scripts/main.js:113 | `split` with a one-unit separator gives at least one piece, and no piece contains the separator. |
| `JsText.JoinSplit` | src/scripts/main.js:113 | Joining the pieces of a split with the separator gives the original string back. |
| `JsText.SplitJoin` | src/scripts/main.js:113 | Splitting separator-free pieces joined with the separator gives the pieces back. |
| `LoadingScreen.StagesOrdered` | src/scripts/loading.js:26-33 | Stage targets 20, 40, 60, 80, 95, 100 rise strictly, their delays rise strictly, all are ≤ 100, and the last is 100. |
| `LoadingScreen.NewLoader` | src/scripts/loading.js:12-22 | A new loader has progress 0, target 100 and a requested first frame, and satisfies the invariant. |
| `LoadingScreen.Animate` | src/scripts/loading.js:43-54 | A frame raises progress by exactly 1 iff progress < target, and otherwise leaves it. It stops requesting frames iff it calls `complete()`, which happens iff progress has reached 100 and the screen was not yet loaded. |
| `LoadingScreen.Step` | src/scripts/loading.js:36-54 | Frames and stage timers preserve the invariant: progress in [0, 100], a frame requested exactly while not loaded, one completion once loaded. Progress never decreases, `isLoaded` never goes back to false, and a stage timer only sets the target. A frame runs `animate` while the loop is requested and changes nothing otherwise. |
| `LoadingScreen.RunInv` | src/scripts/loading.js:44-70 | Over any interleaving of frames and stage timers, the invariant holds, progress never falls and `isLoaded` stays true once set. |
| `LoadingScreen.CompletesOnce` | src/scripts/loading.js:49-70 | From the constructor, `complete()` runs at most once. It has run exactly when `isLoaded` holds, which is exactly when the frame loop has stopped. Progress stays within [0, 100]. |
| `LoadingScreen.CompleteOnFirstFullFrame` | src/scripts/loading.js:44-53 | `complete()` runs on the frame that moves progress from 99 to 100 under target 100, and that frame requests no successor. |
| `LoadingScreen.ReachesCompletion` | src/scripts/loading.js:44-53 | Under target 100, progress rises by one per frame. The screen is loaded, and the loop stopped, after exactly 100 − progress frames and not before. |
| `LoadingScreen.LowerTargetPauses` | src/scripts/loading.js:37-47 | When the target is at or below the progress, for example after an early stage timer, any number of frames leave the progress unchanged. |
| `LoadingScreen.RunsAheadOfEarlyStage` | src/scripts/loading.js:13-47 | Because the initial target is 100, 30 frames before the first timer bring progress to 30. The stage-20 timer then pauses it rather than lowering it. |
| `TerminalTyping.SourceText` | src/scripts/loading.js:97 | The text typed is `data-text` when present and non-empty, otherwise the element's original content. |
| `TerminalTyping.Type` | src/scripts/loading.js:109-115 | One `type` call appends the next unit and schedules another call iff units remain. It keeps the typed text a prefix of the source ending at the index, and changes nothing once the text is out. |
| `TerminalTyping.Start` | src/scripts/loading.js:95-104 | The constructor clears the element, picks the source text and types the first unit at once: the index is min(1, \|text\|), and a further call is pending iff the text is non-empty. The prefix invariant holds. |
| `TerminalTyping.Tick` | src/scripts/loading.js:109-113 | A timer firing with no call pending changes nothing. A pending call types the next unit while units remain, and otherwise stops. The prefix invariant is kept. |
| `TerminalTyping.TypedPrefix` | src/scripts/loading.js:106-117 | After construction and k timer ticks, the element shows the first min(k+1, \|text\|) units, the index equals that count, and a further call is pending exactly while k < \|text\|. |
| `Navigation.Toggle` | src/scripts/main.js:47-50 | A toggle click flips `open` on the nav and `nav-open` on the body, and leaves `scrolled` alone. |
| `Navigation.LinkClick` | src/scripts/main.js:53-58 | A nav-link click always leaves `open` and `nav-open` absent. |
| `Navigation.Scroll` | src/scripts/main.js:63-71 | After a scroll event the nav has `scrolled` iff the offset exceeds 50. The menu classes are untouched. |
| `Navigation.ToggleTwice` | src/scripts/main.js:47-50 | Two toggles restore the original state; one toggle always changes it and keeps the two classes in step. |
| `Navigation.ScrollForgetsHistory` | src/scripts/main.js:63-71 | The `scrolled` class depends only on the latest offset, and repeating a scroll changes nothing. |
| `PortfolioFilter.Matches` | src/scripts/main.js:113-115 | An absent filter matches nothing and `'all'` matches everything. Any other filter matches iff it is one of the space-split categories. |
| `PortfolioFilter.MatchesWord` | src/scripts/main.js:113-115 | For a category without a space, a filter other than `'all'` matches iff it equals the category. |
| `PortfolioFilter.Reach` | src/scripts/main.js:112-113 | The filter pass reaches every card up to the first one without `data-category`, where `split` throws. |
| `PortfolioFilter.Styled` | src/scripts/main.js:115-120 | A reached card is shown (`'block'`) iff it matches the filter and hidden (`'none'`) otherwise; its categories are kept. |
| `PortfolioFilter.FilterCards` | src/scripts/main.js:112-121 | Every reached card becomes `'block'` iff the filter is `'all'` or one of its space-split categories, and `'none'` otherwise. Cards after a missing category are untouched. |
| `PortfolioFilter.Click` | src/scripts/main.js:104-121 | After any filter-button click, exactly the clicked button has `active`, and the cards are filtered by its `data-filter`. |
| `PortfolioFilter.FilterCardsIdempotent` | src/scripts/main.js:112-121 | Filtering twice by the same filter equals filtering once. |
| `PortfolioFilter.FilterCardsLastWins` | src/scripts/main.js:109-121 | A second filter pass overrides whatever the first one set. |
| `PortfolioFilter.ClickIdempotent` | src/scripts/main.js:104-121 | Clicking a button twice equals clicking it once, and the result does not depend on the button clicked before. |
| `PortfolioFilter.AllShowsEverything` | src/scripts/main.js:115-117 | The filter `'all'` makes every reached card visible. |
| `PortfolioFilter.FilterIgnoresPriorDisplay` | src/scripts/main.js:112-120 | Visibility depends only on the filter and each card's categories, not on the displays set before. |
| `PortfolioFilter.MatchesJoinedCategories` | src/scripts/main.js:113-115 | For a category list of space-free words joined by single spaces, a filter other than `'all'` shows the card iff it is one of the words. |
| `FormInputs.Focus` | src/scripts/main.js:205-207 | Focus always adds `focused` to the input's parent. |
| `FormInputs.Blur` | src/scripts/main.js:209-213 | Blur removes `focused` only when the value is empty, and otherwise keeps the parent's state. |
| `FormInputs.FocusThenBlur` | src/scripts/main.js:204-213 | After focus, edits and blur, the marker remains iff the value is non-empty. A second blur changes nothing. |
| `Utils.Clamp` | src/scripts/main.js:224-226 | `clamp(v, lo, hi)` is always ≤ hi. When lo ≤ hi it is also ≥ lo: a value below lo gives lo, a value above hi gives hi, and a value in range is returned unchanged. An inverted range gives hi. |
| `Utils.ClampFixedPoints` | src/scripts/main.js:224-226 | On a proper range, clamping is idempotent and leaves a value unchanged iff it lies in the range. |
| `TextReveal.Shown` | src/scripts/animations.js:357 | A space becomes U+00A0; every other unit is copied unchanged. |
| `TextReveal.Reveal` | src/scripts/animations.js:351-361 | The element's old children are discarded, and exactly one span per code unit is created, in order. Each span holds that unit mapped by `Shown`, with opacity `'0'` and display `'inline-block'`. |
| `TextReveal.RevealText` | src/scripts/animations.js:352-361 | The revealed element's text is the original with every space turned into U+00A0. |
| `TextReveal.RevealRoundTrip` | src/scripts/animations.js:352-357 | Mapping U+00A0 back to space recovers the original text iff the original had no U+00A0 of its own. |

## Left out

- Repulsion direction: `Math.atan2`, `Math.cos` and `Math.sin` are not modelled. The direction is the `heading` parameter, and only the force and the branch structure are in the model.
- `Math.sqrt` is the parameter `sqrt`. `LinkByRoot` relates its threshold test to squared distances when the root is exact.
- Floating point: positions, speeds and offsets are `real`. Rounding, NaN and −0 are not modelled; for example, `clamp` of NaN is out of scope.
- Canvas drawing is not modelled: `draw`, `clearRect`, stroke styles and line widths. The connection pass yields the list of lines with their opacities instead.
- `requestAnimationFrame`, `cancelAnimationFrame` and event-listener registration are not modelled. The loop is a `looping` flag, and frames and window events arrive as `Event`s.
- `Particles.NewParticle`: a `color` option is one of the three palette colours, not an arbitrary string. The system itself never passes options.
- `density` is drawn and kept, but nothing reads it.
- A page without the `#nav` element is not modelled. In that case the scroll and toggle handlers would throw on `nav.classList`.
- `lastScroll` is not modelled: it is written but never read.
- The loading screen's `updateUI`, `hideLoading`, the `loadingComplete` event and `GlowingProgress` are DOM writes or timers. They are not modelled; calls to `complete()` are counted instead.
- `initLoading`'s per-line opacity timers are not modelled.
- Stage timers are events (`StageDue`). Their delays are not modelled: any stage may fire at any time and any number of times, so the proofs hold for every arrival order.
- From `animations.js`, only the character mapping of `createTextReveal` is modelled. All GSAP timelines, scroll triggers, hover, smooth scroll and magnetic effects are library calls with float easing.
- `main.js` counters (`Math.pow` easing on animation frames) are not modelled.
- The asynchronous contact-form submission is not modelled.
- `FormInputs`: each input is assumed to have a parent element of its own.
- `debounce` and `throttle` are timer semantics and are not modelled.
- `lerp`, `mapRange` and `randomRange` are not modelled: their float identities do not hold in doubles.
- `IntersectionObserver` wiring and anchor smooth scrolling are not modelled.
- `holographic.js` and `glitch.js` are not modelled. They hold float geometry, timers and class toggles; the glitch character substitution is never written to the page.

=== FILE: js_text.dfy ===
/** JavaScript strings, seen as what the language stores: sequences of UTF-16
    code units. `charAt`, `length` and `split('')` all work unit by unit. */
module JsText {

  /** One UTF-16 code unit. */
  type CodeUnit = c: int | 0 <= c < 0x1_0000

  type JsString = seq<CodeUnit>

  const Space: CodeUnit := 0x20

  /** U+00A0, NO-BREAK SPACE. */
  const Nbsp: CodeUnit := 0xA0

  /** An ASCII literal, as the code units JavaScript stores for it. */
  function Ascii(s: string): (r: JsString)
    requires forall i :: 0 <= i < |s| ==> s[i] as int < 0x80
    ensures |r| == |s|
    ensures forall i :: 0 <= i < |s| ==> r[i] == s[i] as int
  {
    seq(|s|, i requires 0 <= i < |s| => (s[i] as int) as CodeUnit)
  }

  /** `s.split(sep)` for a one-unit separator: the pieces between separators,
      empty pieces kept, so that there is always at least one piece. */
  function Split(s: JsString, sep: CodeUnit): (parts: seq<JsString>)
    ensures |parts| >= 1
    ensures forall k :: 0 <= k < |parts| ==> sep !in parts[k]
    decreases |s|
  {
    if |s| == 0 then [[]]
    else
      var rest := Split(s[1..], sep);
      if s[0] == sep then [[]] + rest
      else [[s[0]] + rest[0]] + rest[1..]
  }

  /** `parts.join(sep)`: the inverse of `Split`. */
  function Join(parts: seq<JsString>, sep: CodeUnit): JsString
    decreases |parts|
  {
    if |parts| == 0 then []
    else if |parts| == 1 then parts[0]
    else parts[0] + [sep] + Join(parts[1..], sep)
  }

  /** Joining the pieces back with the separator gives the original string. */
  lemma {:induction false} JoinSplit(s: JsString, sep: CodeUnit)
    ensures Join(Split(s, sep), sep) == s
    decreases |s|
  {
    if |s| > 0 {
      var rest := Split(s[1..], sep);
      JoinSplit(s[1..], sep);
      if s[0] == sep {
        assert Split(s, sep) == [[]] + rest;
        assert s == [] + [sep] + Join(rest, sep);
      } else {
        var parts := [[s[0]] + rest[0]] + rest[1..];
        assert Split(s, sep) == parts;
        if |rest| == 1 {
          assert Join(parts, sep) == [s[0]] + rest[0];
        } else {
          assert parts[1..] == rest[1..];
          assert Join(rest, sep) == rest[0] + [sep] + Join(rest[1..], sep);
          assert Join(parts, sep) == [s[0]] + rest[0] + [sep] + Join(rest[1..], sep);
        }
        assert s == [s[0]] + s[1..];
      }
    }
  }

  /** Splitting a string that starts with a separator-free piece `p`. */
  lemma {:induction false} SplitPrefix(p: JsString, t: JsString, sep: CodeUnit)
    requires sep !in p
    ensures Split(p + t, sep) == [p + Split(t, sep)[0]] + Split(t, sep)[1..]
    decreases |p|
  {
    if |p| > 0 {
      SplitPrefix(p[1..], t, sep);
      assert (p + t)[1..] == p[1..] + t;
      assert (p + t)[0] == p[0];
      assert [p[0]] + (p[1..] + Split(t, sep)[0]) == p + Split(t, sep)[0];
    } else {
      var parts := Split(t, sep);
      assert p + t == t;
      assert p + parts[0] == parts[0];
      assert parts == [parts[0]] + parts[1..];
    }
  }

  /** Splitting separator-free pieces joined with the separator gives the
      pieces back. */
  lemma {:induction false} SplitJoin(parts: seq<JsString>, sep: CodeUnit)
    requires |parts| >= 1
    requires forall k :: 0 <= k < |parts| ==> sep !in parts[k]
    ensures Split(Join(parts, sep), sep) == parts
    decreases |parts|
  {
    if |parts| == 1 {
      SplitPrefix(parts[0], [], sep);
      assert parts[0] + [] == parts[0];
      assert Split([], sep) == [[]];
    } else {
      var tail := [sep] + Join(parts[1..], sep);
      assert Join(parts, sep) == parts[0] + tail;
      SplitPrefix(parts[0], tail, sep);
      SplitJoin(parts[1..], sep);
      assert tail[1..] == Join(parts[1..], sep);
      assert Split(tail, sep) == [[]] + parts[1..];
      assert parts[0] + [] == parts[0];
    }
  }
}

=== FILE: loading.dfy ===
/** The loading screen (src/scripts/loading.js): the progress counter driven
    by animation frames and staged targets, and the terminal typewriter.
    Timer and frame arrivals are the events of these state machines. */
module LoadingScreen {

  /** One entry of the `stages` table: a target and its timer delay in ms. */
  datatype Stage = Stage(progress: int, delay: nat)

  const Stages: seq<Stage> := [
    Stage(20, 400), Stage(40, 800), Stage(60, 1200),
    Stage(80, 1600), Stage(95, 2000), Stage(100, 2400)]

  /** The stage targets rise strictly, so do their delays (the timers fire in
      table order), every target is at most 100 and the last one is 100. */
  lemma StagesOrdered()
    ensures |Stages| == 6
    ensures forall a, b :: 0 <= a < b < |Stages| ==>
      Stages[a].progress < Stages[b].progress && Stages[a].delay < Stages[b].delay
    ensures forall a :: 0 <= a < |Stages| ==> 0 < Stages[a].progress <= 100
    ensures Stages[|Stages| - 1].progress == 100
  {
  }

  type StageIndex = k: nat | k < 6

  /** `LoadingScreen`'s fields; `looping` says a next frame is requested and
      `completions` counts the calls of `complete()`. */
  datatype Loader = Loader(progress: int, target: int, isLoaded: bool,
                           looping: bool, completions: nat)

  datatype LoadEvent =
    | Frame                  // the requested animation frame runs
    | StageDue(k: StageIndex) // the timer of stage k fires

  /** The invariant of a loader: progress within [0, 100], a target in
      (0, 100], a frame requested exactly while not loaded, and progress 100
      with exactly one completion once loaded. */
  predicate Inv(l: Loader)
  {
    && 0 <= l.progress <= 100
    && 0 < l.target <= 100
    && (l.looping <==> !l.isLoaded)
    && (l.looping ==> l.progress < 100)
    && (l.isLoaded ==> l.progress == 100)
    && l.completions == (if l.isLoaded then 1 else 0)
  }

  /** The constructor: progress 0, target 100, not loaded, and `init` has
      requested the first frame. */
  function NewLoader(): (l: Loader)
    ensures Inv(l) && l.progress == 0 && l.target == 100 && l.looping
  {
    Loader(0, 100, false, true, 0)
  }

  /** One run of the `animate` frame callback: one step toward the target,
      then either `complete()` (and no new frame) or a new frame request. */
  function Animate(l: Loader): (r: Loader)
    requires l.looping
    ensures r.target == l.target
    ensures r.progress == l.progress + 1 || r.progress == l.progress
    ensures r.progress == l.progress + 1 <==> l.progress < l.target
    ensures !r.looping <==> r.completions == l.completions + 1
    ensures !r.looping <==> (r.progress >= 100 && !l.isLoaded)
    ensures l.isLoaded ==> r.isLoaded
  {
    var p := if l.progress < l.target then l.progress + 1 else l.progress;
    if p >= 100 && !l.isLoaded then
      l.(progress := p, isLoaded := true, looping := false, completions := l.completions + 1)
    else
      l.(progress := p, looping := true)
  }

  function Step(l: Loader, e: LoadEvent): (r: Loader)
    ensures Inv(l) ==> Inv(r)
    ensures r.progress >= l.progress
    ensures l.isLoaded ==> r.isLoaded
    ensures e.StageDue? ==> r == l.(target := Stages[e.k].progress)
    ensures e.Frame? && !l.looping ==> r == l
    ensures e.Frame? && l.looping ==> r == Animate(l)
  {
    match e
    case Frame => if l.looping then Animate(l) else l
    case StageDue(k) => l.(target := Stages[k].progress)
  }

  function Run(l: Loader, events: seq<LoadEvent>): Loader
    decreases |events|
  {
    if |events| == 0 then l else Run(Step(l, events[0]), events[1..])
  }

  /** Over any interleaving of frames and stage timers the invariant holds,
      progress never falls, and `isLoaded` never returns to false. */
  lemma {:induction false} RunInv(l: Loader, events: seq<LoadEvent>)
    requires Inv(l)
    ensures Inv(Run(l, events))
    ensures Run(l, events).progress >= l.progress
    ensures l.isLoaded ==> Run(l, events).isLoaded
    decreases |events|
  {
    if |events| > 0 {
      RunInv(Step(l, events[0]), events[1..]);
    }
  }

  /** From the constructor, `complete()` runs at most once whatever arrives,
      and it has run exactly when the screen is loaded, which is exactly
      when no frame is requested any more. */
  lemma CompletesOnce(events: seq<LoadEvent>)
    ensures var l := Run(NewLoader(), events);
      && l.completions <= 1
      && (l.completions == 1 <==> l.isLoaded)
      && (l.isLoaded <==> !l.looping)
      && 0 <= l.progress <= 100
  {
    RunInv(NewLoader(), events);
  }

  /** `complete()` runs on the frame where progress first reaches 100, which
      is the step from 99 under target 100, and that frame requests no
      successor. */
  lemma CompleteOnFirstFullFrame(l: Loader)
    requires Inv(l) && l.looping
    ensures var r := Animate(l);
      r.completions == 1 <==> (l.progress == 99 && l.target == 100)
    ensures var r := Animate(l); r.completions == 1 ==> r.progress == 100 && !r.looping
  {
  }

  function Frames(l: Loader, n: nat): Loader
    decreases n
  {
    if n == 0 then l else Frames(Step(l, Frame), n - 1)
  }

  /** Under target 100, each frame adds 1: after k < 100 - progress frames
      the screen is still loading, and after exactly 100 - progress frames
      it is loaded and the frame loop has stopped. */
  lemma {:induction false} ReachesCompletion(l: Loader, k: nat)
    requires Inv(l) && l.looping && l.target == 100
    requires k <= 100 - l.progress
    ensures Frames(l, k).progress == l.progress + k
    ensures Frames(l, k).isLoaded <==> k == 100 - l.progress
    ensures k == 100 - l.progress ==> !Frames(l, k).looping && Frames(l, k).completions == 1
    decreases k
  {
    if k > 0 {
      var next := Step(l, Frame);
      if next.looping {
        ReachesCompletion(next, k - 1);
      } else {
        assert k == 1;
      }
    }
  }

  /** A target at or below the progress pauses it: any number of frames
      leave the progress where it is. */
  lemma {:induction false} LowerTargetPauses(l: Loader, n: nat)
    requires Inv(l) && l.target <= l.progress
    ensures Frames(l, n).progress == l.progress
    ensures Frames(l, n).target == l.target
    decreases n
  {
    if n > 0 {
      LowerTargetPauses(Step(l, Frame), n - 1);
    }
  }

  /** Progress can run ahead of an early stage: from the constructor, 30
      frames before the first timer bring progress to 30, and the stage-20
      timer then lowers the target below it, so the next frame pauses. */
  lemma RunsAheadOfEarlyStage()
    ensures var l := Step(Frames(NewLoader(), 30), StageDue(0));
      && l.progress == 30 && l.target == 20
      && Step(l, Frame).progress == 30
  {
    ReachesCompletion(NewLoader(), 30);
  }
}

/** The typewriter of `TerminalTyping`: one code unit per timer tick. */
module TerminalTyping {
  import opened Wrappers
  import opened JsText
  import opened Numbers

  /** The source text, the next index, the element's text, and whether a
      further `type` call is scheduled. */
  datatype Typist = Typist(text: JsString, index: nat, shown: JsString, pending: bool)

  /** `element.dataset.text || element.textContent`: an absent or empty
      `data-text` falls back to the original content. */
  function SourceText(dataText: Option<JsString>, content: JsString): (t: JsString)
    ensures dataText.Some? && dataText.value != [] ==> t == dataText.value
    ensures dataText.None? || dataText.value == [] ==> t == content
  {
    match dataText
    case Some(v) => if v != [] then v else content
    case None => content
  }

  /** The typed text is always the prefix of the source up to the index. */
  predicate Inv(t: Typist)
  {
    t.index <= |t.text| && t.shown == t.text[..t.index]
  }

  /** One call of `type`: append the next unit and schedule another call, or
      stop when the whole text is out. */
  function Type(t: Typist): (r: Typist)
    ensures r.text == t.text
    ensures Inv(t) ==> Inv(r)
    ensures t.index < |t.text| <==> r.pending
    ensures Inv(t) && t.index < |t.text| ==> r.index == t.index + 1
    ensures t.index >= |t.text| ==> r.shown == t.shown && r.index == t.index
  {
    if t.index < |t.text| then
      t.(shown := t.shown + [t.text[t.index]], index := t.index + 1, pending := true)
    else
      t.(pending := false)
  }

  /** The constructor: pick the source, clear the element, and make the
      first `type` call synchronously. */
  function Start(dataText: Option<JsString>, content: JsString): (t: Typist)
    ensures t.text == SourceText(dataText, content)
    ensures Inv(t)
    ensures t.index == Min(1, |t.text|) && (t.pending <==> |t.text| > 0)
  {
    Type(Typist(SourceText(dataText, content), 0, [], false))
  }

  /** A `setTimeout(type, 30)` firing; nothing happens when none is
      scheduled. */
  function Tick(t: Typist): (r: Typist)
    ensures r.text == t.text
    ensures Inv(t) ==> Inv(r)
    ensures !t.pending ==> r == t
    ensures t.pending && Inv(t) && t.index < |t.text| ==>
      r.pending && r.index == t.index + 1 && r.shown == t.shown + [t.text[t.index]]
    ensures t.pending && t.index >= |t.text| ==> !r.pending && r.shown == t.shown
  {
    if t.pending then Type(t) else t
  }

  function Ticks(t: Typist, n: nat): Typist
    decreases n
  {
    if n == 0 then t else Ticks(Tick(t), n - 1)
  }

  /** After construction and k timer ticks, k + 1 calls of `type` have run:
      the element shows the first min(k + 1, |text|) units of the source,
      and a further call is pending exactly while k < |text|. */
  lemma {:induction false} TypedPrefix(dataText: Option<JsString>, content: JsString, k: nat)
    ensures var t := Ticks(Start(dataText, content), k);
      && t.text == SourceText(dataText, content)
      && t.index == Min(k + 1, |t.text|)
      && t.shown == t.text[..Min(k + 1, |t.text|)]
      && (t.pending <==> k < |t.text|)
    decreases k
  {
    if k > 0 {
      TypedPrefix(dataText, content, k - 1);
      TicksLast(Start(dataText, content), k - 1);
    }
  }

  /** Unrolling `Ticks` from the far end. */
  lemma {:induction false} TicksLast(t: Typist, n: nat)
    ensures Ticks(t, n + 1) == Tick(Ticks(t, n))
    decreases n
  {
    if n > 0 {
      TicksLast(Tick(t), n - 1);
    }
  }
}

=== FILE: main_page.dfy ===
/** The mobile menu and the sticky navigation bar (`initNavigation` in
    src/scripts/main.js). */
module Navigation {

  /** The `open` and `scrolled` classes of `#nav`, and `nav-open` on
      `document.body`. */
  datatype Nav = Nav(open: bool, bodyNavOpen: bool, scrolled: bool)

  /** The offset beyond which the bar counts as scrolled. */
  const ScrollThreshold: real := 50.0

  /** A click on `#nav-toggle`: both classes toggle independently. */
  function Toggle(n: Nav): (r: Nav)
    ensures r.open == !n.open && r.bodyNavOpen == !n.bodyNavOpen
    ensures r.scrolled == n.scrolled
  {
    n.(open := !n.open, bodyNavOpen := !n.bodyNavOpen)
  }

  /** A click on any `.nav-link`: the menu closes. */
  function LinkClick(n: Nav): (r: Nav)
    ensures !r.open && !r.bodyNavOpen && r.scrolled == n.scrolled
  {
    n.(open := false, bodyNavOpen := false)
  }

  /** A `scroll` event at the given `window.pageYOffset`. */
  function Scroll(n: Nav, offset: real): (r: Nav)
    ensures r.scrolled <==> offset > ScrollThreshold
    ensures r.open == n.open && r.bodyNavOpen == n.bodyNavOpen
  {
    n.(scrolled := offset > ScrollThreshold)
  }

  /** Two toggles restore the menu; a toggle keeps the two classes in step
      when they were in step. */
  lemma ToggleTwice(n: Nav)
    ensures Toggle(Toggle(n)) == n
    ensures n.open == n.bodyNavOpen ==> Toggle(n).open == Toggle(n).bodyNavOpen
    ensures Toggle(n) != n
  {
  }

  /** The `scrolled` class depends on the latest offset alone. */
  lemma ScrollForgetsHistory(n: Nav, m: Nav, offset: real)
    ensures Scroll(n, offset).scrolled == Scroll(m, offset).scrolled
    ensures Scroll(Scroll(n, offset), offset) == Scroll(n, offset)
  {
  }
}

/** The portfolio category filter (`initPortfolioFilter` in
    src/scripts/main.js). */
module PortfolioFilter {
  import opened Wrappers
  import opened JsText

  /** The `style.display` a card carries: untouched by the filter so far,
      `'block'` (with the fade-in animation), or `'none'`. */
  datatype Display = Untouched | Block | Hidden

  /** A `.project-card`; `category` is its `data-category` attribute. */
  datatype Card = Card(category: Option<JsString>, display: Display)

  /** A `.filter-btn`; `filter` is its `data-filter` attribute. */
  datatype Button = Button(filter: Option<JsString>, active: bool)

  datatype Portfolio = Portfolio(buttons: seq<Button>, cards: seq<Card>)

  /** The filter value that shows everything. */
  const All: JsString := Ascii("all")

  /** `filter === 'all' || categories.includes(filter)` for the categories of
      `data-category.split(' ')`; an absent `data-filter` is `undefined`,
      which matches nothing. */
  function Matches(category: JsString, filter: Option<JsString>): (b: bool)
    ensures filter.None? ==> !b
    ensures filter == Some(All) ==> b
    ensures filter.Some? && filter.value != All ==> (b <==> filter.value in Split(category, Space))
  {
    filter.Some? && (filter.value == All || filter.value in Split(category, Space))
  }

  /** A category without a space is a single word: a filter other than
      `'all'` matches it exactly when equal to it. */
  lemma MatchesWord(category: JsString, f: JsString)
    requires Space !in category
    requires f != All
    ensures Matches(category, Some(f)) <==> f == category
  {
    SplitPrefix(category, [], Space);
    assert category + [] == category;
  }

  /** The number of leading cards the click handler styles: every card up to
      the first without `data-category`, where `.split` throws. */
  function Reach(cards: seq<Card>): (m: nat)
    ensures m <= |cards|
    ensures forall k :: 0 <= k < m ==> cards[k].category.Some?
    ensures m < |cards| ==> cards[m].category.None?
    decreases |cards|
  {
    if |cards| == 0 || cards[0].category.None? then 0 else 1 + Reach(cards[1..])
  }

  /** A reached card after the pass: `'block'` (with the fade-in) when it
      matches, `'none'` otherwise. */
  function Styled(c: Card, filter: Option<JsString>): (r: Card)
    requires c.category.Some?
    ensures r.category == c.category
    ensures r.display == Block <==> Matches(c.category.value, filter)
    ensures r.display == Block || r.display == Hidden
  {
    c.(display := if Matches(c.category.value, filter) then Block else Hidden)
  }

  /** The `projectCards.forEach` pass: each card is shown or hidden by the
      filter, until a card without a category stops the pass. */
  function FilterCards(cards: seq<Card>, filter: Option<JsString>): (r: seq<Card>)
    ensures |r| == |cards|
    ensures forall k :: 0 <= k < |r| ==> r[k].category == cards[k].category
    ensures forall k :: 0 <= k < Reach(cards) ==> r[k] == Styled(cards[k], filter)
    ensures forall k :: Reach(cards) <= k < |r| ==> r[k] == cards[k]
    decreases |cards|
  {
    if |cards| == 0 || cards[0].category.None? then cards
    else
      var rest := FilterCards(cards[1..], filter);
      assert Reach(cards) == 1 + Reach(cards[1..]);
      [Styled(cards[0], filter)] + rest
  }

  /** A click on button `b`: every button loses `active`, `b` gains it, then
      the cards are filtered by `b`'s `data-filter`. */
  function Click(p: Portfolio, b: nat): (r: Portfolio)
    requires b < |p.buttons|
    ensures |r.buttons| == |p.buttons| && |r.cards| == |p.cards|
    ensures forall k :: 0 <= k < |r.buttons| ==> (r.buttons[k].active <==> k == b)
    ensures forall k :: 0 <= k < |r.buttons| ==> r.buttons[k].filter == p.buttons[k].filter
    ensures r.cards == FilterCards(p.cards, p.buttons[b].filter)
  {
    var buttons := seq(|p.buttons|, k requires 0 <= k < |p.buttons| =>
      p.buttons[k].(active := k == b));
    Portfolio(buttons, FilterCards(p.cards, p.buttons[b].filter))
  }

  /** Card lists with the same categories are reached equally far. */
  lemma {:induction false} ReachByCategories(cards: seq<Card>, others: seq<Card>)
    requires |cards| == |others|
    requires forall k :: 0 <= k < |cards| ==> cards[k].category == others[k].category
    ensures Reach(cards) == Reach(others)
    decreases |cards|
  {
    if |cards| > 0 && cards[0].category.Some? {
      ReachByCategories(cards[1..], others[1..]);
    }
  }

  /** Visibility depends on the filter and the card's own categories only:
      two card lists with the same categories end with the same cards up to
      the first card without a category. */
  lemma FilterIgnoresPriorDisplay(cards: seq<Card>, others: seq<Card>, f: Option<JsString>)
    requires |cards| == |others|
    requires forall k :: 0 <= k < |cards| ==> cards[k].category == others[k].category
    ensures Reach(cards) == Reach(others)
    ensures forall k :: 0 <= k < Reach(cards) ==> FilterCards(cards, f)[k] == FilterCards(others, f)[k]
  {
    ReachByCategories(cards, others);
  }

  /** One card after two passes, once the first pass is known to keep the
      reach. */
  lemma FilterTwiceAt(cards: seq<Card>, f: Option<JsString>, g: Option<JsString>, k: nat)
    requires Reach(FilterCards(cards, f)) == Reach(cards)
    requires k < |cards|
    ensures FilterCards(FilterCards(cards, f), g)[k] == FilterCards(cards, g)[k]
  {
    var once := FilterCards(cards, f);
    if k < Reach(cards) {
      assert once[k] == Styled(cards[k], f);
    }
  }

  /** Card by card, a second pass overrides the first. */
  lemma FilterTwiceEach(cards: seq<Card>, f: Option<JsString>, g: Option<JsString>)
    requires Reach(FilterCards(cards, f)) == Reach(cards)
    ensures forall k :: 0 <= k < |cards| ==>
      FilterCards(FilterCards(cards, f), g)[k] == FilterCards(cards, g)[k]
  {
    forall k | 0 <= k < |cards|
      ensures FilterCards(FilterCards(cards, f), g)[k] == FilterCards(cards, g)[k]
    {
      FilterTwiceAt(cards, f, g, k);
    }
  }

  /** The last filter wins: a second pass overrides whatever the first
      one set. */
  lemma FilterCardsLastWins(cards: seq<Card>, f: Option<JsString>, g: Option<JsString>)
    ensures FilterCards(FilterCards(cards, f), g) == FilterCards(cards, g)
  {
    ReachByCategories(cards, FilterCards(cards, f));
    FilterTwiceEach(cards, f, g);
  }

  /** Filtering twice by one filter is filtering once. */
  lemma FilterCardsIdempotent(cards: seq<Card>, f: Option<JsString>)
    ensures FilterCards(FilterCards(cards, f), f) == FilterCards(cards, f)
  {
    FilterCardsLastWins(cards, f, f);
  }

  /** Clicking the same button twice is clicking it once; and the result of
      a click does not depend on which button was clicked before. */
  lemma ClickIdempotent(p: Portfolio, a: nat, b: nat)
    requires a < |p.buttons| && b < |p.buttons|
    ensures Click(Click(p, b), b) == Click(p, b)
    ensures Click(Click(p, a), b) == Click(p, b)
  {
    FilterCardsIdempotent(p.cards, p.buttons[b].filter);
    FilterCardsLastWins(p.cards, p.buttons[a].filter, p.buttons[b].filter);
  }

  /** The filter `'all'` shows every card the pass reaches, whatever its
      categories. */
  lemma AllShowsEverything(cards: seq<Card>)
    ensures forall k :: 0 <= k < Reach(cards) ==> FilterCards(cards, Some(All))[k].display == Block
  {
  }

  /** A category list matches a filter without spaces exactly when the
      filter is one of its space-separated words: the list is those words
      joined by single spaces. */
  lemma MatchesJoinedCategories(words: seq<JsString>, f: JsString)
    requires |words| >= 1
    requires forall k :: 0 <= k < |words| ==> Space !in words[k]
    requires f != All
    ensures Matches(Join(words, Space), Some(f)) <==> f in words
  {
    SplitJoin(words, Space);
  }
}

/** The focus marker on contact-form fields (`initContactForm`'s input
    listeners in src/scripts/main.js). */
module FormInputs {
  import opened JsText

  /** An input's current value and whether its parent has `focused`. */
  datatype Field = Field(value: JsString, focused: bool)

  /** `focus`: the parent gains `focused`. */
  function Focus(f: Field): (r: Field)
    ensures r.focused && r.value == f.value
  {
    f.(focused := true)
  }

  /** `blur`: the parent loses `focused` only when the value is empty. */
  function Blur(f: Field): (r: Field)
    ensures r.value == f.value
    ensures r.focused <==> f.focused && f.value != []
  {
    if f.value == [] then f.(focused := false) else f
  }

  /** The user edits the value; the classes do not change. */
  function Edit(f: Field, v: JsString): (r: Field)
    ensures r.value == v && r.focused == f.focused
  {
    f.(value := v)
  }

  /** After a focus and a blur, the marker stays exactly when the field was
      left filled in; blurring again changes nothing. */
  lemma FocusThenBlur(f: Field, v: JsString)
    ensures Blur(Edit(Focus(f), v)).focused <==> v != []
    ensures Blur(Blur(f)) == Blur(f)
  {
  }
}

/** The numeric helper `clamp` of src/scripts/main.js, over reals. */
module Utils {

  /** `Math.min(Math.max(value, min), max)`. */
  function Clamp(value: real, lo: real, hi: real): (r: real)
    ensures value < lo <= hi ==> r == lo
    ensures lo <= hi < value ==> r == hi
    ensures r <= hi
    ensures lo <= hi ==> lo <= r
    ensures lo <= value <= hi ==> r == value
    ensures lo > hi ==> r == hi
    ensures r == value || r == lo || r == hi
  {
    var raised := if value >= lo then value else lo;
    if raised <= hi then raised else hi
  }

  /** Clamping is idempotent, and on a proper range a value is left alone
      exactly when it lies inside it. */
  lemma ClampFixedPoints(value: real, lo: real, hi: real)
    requires lo <= hi
    ensures Clamp(Clamp(value, lo, hi), lo, hi) == Clamp(value, lo, hi)
    ensures Clamp(value, lo, hi) == value <==> lo <= value <= hi
  {
  }
}

=== FILE: numbers.dfy ===
/** Small numeric helpers shared by the modules. */
module Numbers {
  /** `Math.min` on naturals. */
  function Min(a: nat, b: nat): (m: nat)
    ensures m <= a && m <= b
    ensures m == a || m == b
  {
    if a <= b then a else b
  }
}

=== FILE: particle.dfy ===
/** One background particle: creation from random draws and the per-frame
    update (src/scripts/particles.js, class Particle). Positions are reals, an
    idealisation of the source's doubles. */
module Particles {
  import opened Wrappers

  /** One result of `Math.random()`. */
  type Unit = r: real | 0.0 <= r < 1.0

  /** A result of `Math.sqrt` on a non-negative argument. */
  type NonNeg = r: real | 0.0 <= r

  /** The three colour prefixes of `getRandomColor`: rgba(0, 240, 255),
      rgba(123, 44, 191) and rgba(157, 78, 221). */
  datatype Color = Cyan | Purple | LightPurple

  const Palette: seq<Color> := [Cyan, Purple, LightPurple]

  /** The random draws one `new Particle(canvas)` consumes, named by the
      attribute each one feeds. */
  datatype Draws = Draws(x: Unit, y: Unit, size: Unit, speedX: Unit, speedY: Unit,
                         opacity: Unit, color: Unit, density: Unit)

  /** The constructor's `options` object; `None` is an absent key. */
  datatype Options = Options(x: Option<real>, y: Option<real>, size: Option<real>,
                             speedX: Option<real>, speedY: Option<real>,
                             opacity: Option<real>, color: Option<Color>)

  const NoOptions: Options := Options(None, None, None, None, None, None, None)

  datatype Particle = Particle(
    x: real, y: real,            // drawn position
    baseX: real, baseY: real,    // home position, drifting by the speed
    size: real, speedX: real, speedY: real, opacity: real,
    color: Color, density: real)

  /** The pointer as `ParticleSystem` stores it: two nullable coordinates. */
  datatype Mouse = Mouse(x: Option<real>, y: Option<real>)

  const MaxDistance: real := 150.0
  const ReturnSpeed: real := 0.02

  /** JavaScript's `option || draw` on a number: an absent option and an
      explicit `0` both fall through to the draw. */
  function OrElse(option: Option<real>, draw: real): (r: real)
    ensures option.Some? && option.value != 0.0 ==> r == option.value
    ensures option.None? || option.value == 0.0 ==> r == draw
  {
    match option
    case Some(v) => if v != 0.0 then v else draw
    case None => draw
  }

  /** `Math.floor(Math.random() * colors.length)`. */
  function PaletteIndex(r: Unit): (k: nat)
    ensures k < |Palette|
    ensures k as real <= r * 3.0 < k as real + 1.0
  {
    (r * 3.0).Floor
  }

  /** `Math.random() * extent`: in [0, extent], and below a positive
      extent. */
  function Scaled(r: Unit, extent: nat): (v: real)
    ensures 0.0 <= v <= extent as real
    ensures extent > 0 ==> v < extent as real
  {
    var e := extent as real;
    var v := r * e;
    assert v <= e by {
      assert r * e <= 1.0 * e;
    }
    assert extent > 0 ==> v < e by {
      if extent > 0 {
        assert r * e < 1.0 * e;
      }
    }
    v
  }

  /** `new Particle(canvas, options)` on a canvas of the given size. */
  function NewParticle(width: nat, height: nat, opts: Options, d: Draws): (p: Particle)
    ensures p.baseX == p.x && p.baseY == p.y
    ensures opts.x.Some? && opts.x.value != 0.0 ==> p.x == opts.x.value
    ensures opts.y.Some? && opts.y.value != 0.0 ==> p.y == opts.y.value
    ensures opts.size.Some? && opts.size.value != 0.0 ==> p.size == opts.size.value
    ensures opts.speedX.Some? && opts.speedX.value != 0.0 ==> p.speedX == opts.speedX.value
    ensures opts.speedY.Some? && opts.speedY.value != 0.0 ==> p.speedY == opts.speedY.value
    ensures opts.opacity.Some? && opts.opacity.value != 0.0 ==> p.opacity == opts.opacity.value
    ensures opts.color.Some? ==> p.color == opts.color.value
    ensures opts.color.None? ==> p.color in Palette
    ensures opts.x.None? ==> p.x == Scaled(d.x, width)
    ensures opts.y.None? ==> p.y == Scaled(d.y, height)
    ensures opts.size.None? ==> 0.5 <= p.size < 2.5
    ensures opts.speedX.None? ==> -0.25 <= p.speedX < 0.25
    ensures opts.speedY.None? ==> -0.25 <= p.speedY < 0.25
    ensures opts.opacity.None? ==> 0.2 <= p.opacity < 0.7
    ensures 1.0 <= p.density < 31.0
  {
    var x := OrElse(opts.x, Scaled(d.x, width));
    var y := OrElse(opts.y, Scaled(d.y, height));
    Particle(
      x, y, x, y,
      OrElse(opts.size, d.size * 2.0 + 0.5),
      OrElse(opts.speedX, (d.speedX - 0.5) * 0.5),
      OrElse(opts.speedY, (d.speedY - 0.5) * 0.5),
      OrElse(opts.opacity, d.opacity * 0.5 + 0.2),
      match opts.color case Some(c) => c case None => Palette[PaletteIndex(d.color)],
      d.density * 30.0 + 1.0)
  }

  /** The attribute ranges a particle keeps for its whole life on a canvas
      of the given size. */
  ghost predicate Settled(p: Particle, width: nat, height: nat)
  {
    && 0.5 <= p.size < 2.5
    && -0.25 <= p.speedX < 0.25
    && -0.25 <= p.speedY < 0.25
    && 0.2 <= p.opacity < 0.7
    && p.color in Palette
    && 1.0 <= p.density < 31.0
    && 0.0 <= p.baseX <= width as real
    && 0.0 <= p.baseY <= height as real
  }

  /** `new Particle(canvas)`, as `ParticleSystem` calls it: no options, so
      every attribute comes from a draw. */
  function Spawn(width: nat, height: nat, d: Draws): (p: Particle)
    ensures Settled(p, width, height)
    ensures p.baseX == p.x && p.baseY == p.y
    ensures width > 0 ==> p.x < width as real
    ensures height > 0 ==> p.y < height as real
  {
    NewParticle(width, height, NoOptions, d)
  }

  /** The repulsion strength `(maxDistance - distance) / maxDistance`. */
  function Force(distance: real): real
  {
    (MaxDistance - distance) / MaxDistance
  }

  /** Inside the radius the force lies in (0, 1], is 1 at the pointer and
      weakens strictly with distance. */
  lemma ForceProfile(d1: NonNeg, d2: NonNeg)
    requires d1 < d2 < MaxDistance
    ensures 0.0 < Force(d2) < Force(d1) <= 1.0
    ensures Force(0.0) == 1.0
  {
  }

  /** The position after the mouse-interaction block of `update`. The
      direction `(cos θ, sin θ)` for `θ = Math.atan2(dy, dx)` comes from the
      host's trigonometry. */
  function Repel(p: Particle, mouse: Mouse, sqrt: real -> NonNeg,
                 heading: (real, real) -> (real, real)): (pos: (real, real))
    ensures OutOfReach(p, mouse, sqrt) ==> pos == (p.x, p.y)
    ensures !OutOfReach(p, mouse, sqrt) ==>
      var force := Force(PointerDistance(p, mouse, sqrt));
      var dir := heading(mouse.y.value - p.y, mouse.x.value - p.x);
      && 0.0 < force <= 1.0
      && pos.0 == p.x - dir.0 * force * 2.0
      && pos.1 == p.y - dir.1 * force * 2.0
  {
    if OutOfReach(p, mouse, sqrt) then (p.x, p.y)
    else
      var force := Force(PointerDistance(p, mouse, sqrt));
      var dir := heading(mouse.y.value - p.y, mouse.x.value - p.x);
      (p.x - dir.0 * force * 2.0, p.y - dir.1 * force * 2.0)
  }

  /** The edge wrap of a home coordinate: below 0 jumps to the far edge,
      beyond the far edge jumps to 0. Both checks are strict, so the range
      kept is the closed interval [0, extent]. */
  function Wrap(v: real, extent: nat): (r: real)
    ensures 0.0 <= r <= extent as real
    ensures 0.0 <= v <= extent as real ==> r == v
    ensures v < 0.0 ==> r == extent as real
    ensures v > extent as real ==> r == 0.0
  {
    var low := if v < 0.0 then extent as real else v;
    if low > extent as real then 0.0 else low
  }

  /** One call of `update(mouse)` on a canvas of the given size. */
  function Update(p: Particle, mouse: Mouse, width: nat, height: nat,
                  sqrt: real -> NonNeg, heading: (real, real) -> (real, real)): (q: Particle)
    ensures 0.0 <= q.baseX <= width as real && 0.0 <= q.baseY <= height as real
    ensures q.size == p.size && q.opacity == p.opacity && q.color == p.color
    ensures q.speedX == p.speedX && q.speedY == p.speedY && q.density == p.density
    ensures Settled(p, width, height) ==> Settled(q, width, height)
    ensures q.baseX == Wrap(p.baseX + p.speedX, width)
    ensures q.baseY == Wrap(p.baseY + p.speedY, height)
    ensures var pos := Repel(p, mouse, sqrt, heading);
      q.x == pos.0 + (p.baseX - pos.0) * ReturnSpeed && q.y == pos.1 + (p.baseY - pos.1) * ReturnSpeed
  {
    var pos := Repel(p, mouse, sqrt, heading);
    p.(x := pos.0 + (p.baseX - pos.0) * ReturnSpeed,
       y := pos.1 + (p.baseY - pos.1) * ReturnSpeed,
       baseX := Wrap(p.baseX + p.speedX, width),
       baseY := Wrap(p.baseY + p.speedY, height))
  }

  /** The pointer is out of reach: absent, or at distance 150 or more. */
  predicate OutOfReach(p: Particle, mouse: Mouse, sqrt: real -> NonNeg)
  {
    mouse.x.None? || mouse.y.None? || PointerDistance(p, mouse, sqrt) >= MaxDistance
  }

  /** `Math.sqrt(dx * dx + dy * dy)` from the particle to the pointer. */
  function PointerDistance(p: Particle, mouse: Mouse, sqrt: real -> NonNeg): NonNeg
    requires mouse.x.Some? && mouse.y.Some?
  {
    var dx := mouse.x.value - p.x;
    var dy := mouse.y.value - p.y;
    sqrt(dx * dx + dy * dy)
  }

  /** `v` lies between `a` and `b`, whichever is larger. */
  predicate Between(v: real, a: real, b: real)
  {
    (a <= v <= b) || (b <= v <= a)
  }

  function Abs(v: real): real
  {
    if v < 0.0 then -v else v
  }

  /** Out of the pointer's reach, a particle only relaxes toward its old home:
      it moves 2% of the way, stays between its old position and the old
      home, and its distance to that home shrinks to 98%. */
  lemma ReturnStep(p: Particle, mouse: Mouse, width: nat, height: nat,
                   sqrt: real -> NonNeg, heading: (real, real) -> (real, real))
    requires OutOfReach(p, mouse, sqrt)
    ensures var q := Update(p, mouse, width, height, sqrt, heading);
      && q.x == p.x + (p.baseX - p.x) * 0.02
      && q.y == p.y + (p.baseY - p.y) * 0.02
      && Between(q.x, p.x, p.baseX) && Between(q.y, p.y, p.baseY)
      && Abs(p.baseX - q.x) == 0.98 * Abs(p.baseX - p.x)
      && Abs(p.baseY - q.y) == 0.98 * Abs(p.baseY - p.y)
  {
    var q := Update(p, mouse, width, height, sqrt, heading);
    assert Repel(p, mouse, sqrt, heading) == (p.x, p.y);
    assert p.baseX - q.x == 0.98 * (p.baseX - p.x);
    assert p.baseY - q.y == 0.98 * (p.baseY - p.y);
  }
}

=== FILE: particle_system.dfy ===
/** The particle background as a whole (src/scripts/particles.js, class
    ParticleSystem): population from the canvas size, the window events it
    listens to, the animation frame and the pairwise connection pass. */
module ParticleSystem {
  import opened Wrappers
  import opened Particles
  import opened Numbers

  /** Canvas area per particle. */
  const Density: nat := 15000

  /** Population cap. */
  const MaxParticles: nat := 150

  /** Connection radius. */
  const LinkDistance: real := 120.0

  /** `Math.min(Math.floor(width * height / 15000), 150)`. */
  function ParticleCount(width: nat, height: nat): (n: nat)
    ensures n <= MaxParticles
    ensures n * Density <= width * height
    ensures n < MaxParticles ==> width * height < (n + 1) * Density
    ensures width * height < Density ==> n == 0
  {
    Min(width * height / Density, MaxParticles)
  }

  /** The population of an 800×600 and of a 1920×1080 canvas. */
  lemma CountExamples()
    ensures ParticleCount(800, 600) == 32
    ensures ParticleCount(1920, 1080) == 138
    ensures ParticleCount(100, 149) == 0
    ensures ParticleCount(4000, 4000) == 150
  {
  }

  /** `count` fresh particles, the k-th one from the k-th draws. */
  function SpawnAll(count: nat, width: nat, height: nat, rand: nat -> Draws): (ps: seq<Particle>)
    ensures |ps| == count
    ensures forall k :: 0 <= k < count ==> Settled(ps[k], width, height)
    ensures forall k :: 0 <= k < count ==> ps[k].baseX == ps[k].x && ps[k].baseY == ps[k].y
    ensures forall k :: 0 <= k < count ==> ps[k] == Spawn(width, height, rand(k))
  {
    var ps := seq(count, k requires 0 <= k < count => Spawn(width, height, rand(k)));
    assert forall k :: 0 <= k < count ==> ps[k] == Spawn(width, height, rand(k));
    ps
  }

  datatype System =
    | Inert   // no canvas element: the constructor returned before `init`
    | Live(width: nat, height: nat, particles: seq<Particle>, mouse: Mouse,
           looping: bool)   // looping: a next frame is requested

  /** The host's `Math.sqrt` and the `(cos, sin)` of `Math.atan2(dy, dx)`. */
  datatype Host = Host(sqrt: real -> NonNeg, heading: (real, real) -> (real, real))

  /** `resize()`: the canvas takes the window size; a non-empty population is
      replaced by a fresh one of the new size, an empty one is left empty. */
  function Resize(s: System, innerWidth: nat, innerHeight: nat, rand: nat -> Draws): (r: System)
    requires s.Live?
    ensures r.Live? && r.width == innerWidth && r.height == innerHeight
    ensures r.mouse == s.mouse && r.looping == s.looping
    ensures |s.particles| > 0 ==> |r.particles| == ParticleCount(innerWidth, innerHeight)
    ensures |s.particles| == 0 ==> r.particles == []
    ensures forall k :: 0 <= k < |r.particles| ==> Settled(r.particles[k], innerWidth, innerHeight)
    ensures |s.particles| > 0 ==>
      forall k :: 0 <= k < |r.particles| ==> r.particles[k] == Spawn(innerWidth, innerHeight, rand(k))
  {
    var population := if |s.particles| > 0
      then SpawnAll(ParticleCount(innerWidth, innerHeight), innerWidth, innerHeight, rand)
      else s.particles;
    s.(width := innerWidth, height := innerHeight, particles := population)
  }

  /** `createParticles()`: pushes `ParticleCount` fresh particles onto the
      current ones. */
  function CreateParticles(s: System, rand: nat -> Draws): (r: System)
    requires s.Live?
    ensures r.Live? && r.width == s.width && r.height == s.height
    ensures r.mouse == s.mouse && r.looping == s.looping
    ensures |r.particles| == |s.particles| + ParticleCount(s.width, s.height)
    ensures r.particles[..|s.particles|] == s.particles
    ensures forall k :: |s.particles| <= k < |r.particles| ==> Settled(r.particles[k], s.width, s.height)
    ensures forall k :: |s.particles| <= k < |r.particles| ==>
      r.particles[k] == Spawn(s.width, s.height, rand(k - |s.particles|))
  {
    s.(particles := s.particles + SpawnAll(ParticleCount(s.width, s.height), s.width, s.height, rand))
  }

  /** A pointer whose coordinates are both null or both set. */
  predicate Paired(m: Mouse)
  {
    m.x.Some? <==> m.y.Some?
  }

  /** Lines drawn by the connection pass: the pair and the stroke opacity. */
  datatype Line = Line(i: nat, j: nat, opacity: real)

  function Distance(a: Particle, b: Particle, sqrt: real -> NonNeg): NonNeg
  {
    var dx := a.x - b.x;
    var dy := a.y - b.y;
    sqrt(dx * dx + dy * dy)
  }

  /** `(1 - distance / maxDistance) * 0.15`. */
  function LinkOpacity(d: real): real
  {
    (1.0 - d / LinkDistance) * 0.15
  }

  /** A drawn line has opacity in (0, 0.15]: 0.15 at distance 0, falling
      strictly with distance, and 0 at the radius itself. */
  lemma LinkOpacityProfile(d1: NonNeg, d2: NonNeg)
    requires d1 < d2 < LinkDistance
    ensures 0.0 < LinkOpacity(d2) < LinkOpacity(d1) <= 0.15
    ensures LinkOpacity(0.0) == 0.15 && LinkOpacity(LinkDistance) == 0.0
  {
  }

  /** For an exact root, the test `distance < 120` is the test on the squared
      distance `dx² + dy² < 14400`. */
  lemma LinkByRoot(d: NonNeg, squared: real)
    requires d * d == squared
    ensures d < LinkDistance <==> squared < 14400.0
  {
    assert LinkDistance * LinkDistance == 14400.0;
    if d >= LinkDistance {
      assert d * d >= LinkDistance * d >= LinkDistance * LinkDistance;
    } else {
      assert d * d <= LinkDistance * d;
      assert LinkDistance * d < LinkDistance * LinkDistance;
    }
  }

  /** The check of the pair (i, j): a line when closer than 120. */
  function Link(ps: seq<Particle>, sqrt: real -> NonNeg, i: nat, j: nat): seq<Line>
    requires i < j < |ps|
  {
    var d := Distance(ps[i], ps[j], sqrt);
    if d < LinkDistance then [Line(i, j, LinkOpacity(d))] else []
  }

  /** Row i of the pass, partners i+1 .. end-1, in order. */
  function RowLinks(ps: seq<Particle>, sqrt: real -> NonNeg, i: nat, end: nat): seq<Line>
    requires i < |ps| && end <= |ps|
    decreases end
  {
    if end <= i + 1 then []
    else RowLinks(ps, sqrt, i, end - 1) + Link(ps, sqrt, i, end - 1)
  }

  /** Rows 0 .. rows-1 of the pass, in order. */
  function Links(ps: seq<Particle>, sqrt: real -> NonNeg, rows: nat): seq<Line>
    requires rows <= |ps|
    decreases rows
  {
    if rows == 0 then []
    else Links(ps, sqrt, rows - 1) + RowLinks(ps, sqrt, rows - 1, |ps|)
  }

  /** Everything the connection pass draws for one frame. */
  function Connections(ps: seq<Particle>, sqrt: real -> NonNeg): seq<Line>
  {
    Links(ps, sqrt, |ps|)
  }

  /** The pair predicate the pass decides. */
  predicate Linked(ps: seq<Particle>, sqrt: real -> NonNeg, l: Line)
  {
    && l.i < l.j < |ps|
    && Distance(ps[l.i], ps[l.j], sqrt) < LinkDistance
    && l.opacity == LinkOpacity(Distance(ps[l.i], ps[l.j], sqrt))
  }

  /** The check of one pair draws at most one line, exactly when the pair
      is closer than 120, and that line is the pair with its opacity. */
  lemma LinkDecides(ps: seq<Particle>, sqrt: real -> NonNeg, i: nat, j: nat)
    requires i < j < |ps|
    ensures |Link(ps, sqrt, i, j)| <= 1
    ensures Link(ps, sqrt, i, j) != [] <==> Distance(ps[i], ps[j], sqrt) < LinkDistance
    ensures forall l :: l in Link(ps, sqrt, i, j) <==> l.i == i && l.j == j && Linked(ps, sqrt, l)
  {
  }

  /** `a` comes strictly before `b` in the pass's (i, j) order. */
  predicate Before(a: Line, b: Line)
  {
    a.i < b.i || (a.i == b.i && a.j < b.j)
  }

  /** Row i up to partner `end` draws exactly the linked pairs (i, j) with
      j < end. */
  lemma {:induction false} RowMembers(ps: seq<Particle>, sqrt: real -> NonNeg, i: nat, end: nat)
    requires i < |ps| && end <= |ps|
    ensures forall l :: l in RowLinks(ps, sqrt, i, end) <==> l.i == i && l.j < end && Linked(ps, sqrt, l)
    decreases end
  {
    if end > i + 1 {
      RowMembers(ps, sqrt, i, end - 1);
    }
  }

  /** Row i draws in order of the partner. */
  lemma {:induction false} RowOrdered(ps: seq<Particle>, sqrt: real -> NonNeg, i: nat, end: nat)
    requires i < |ps| && end <= |ps|
    ensures forall a, b :: 0 <= a < b < |RowLinks(ps, sqrt, i, end)| ==>
      Before(RowLinks(ps, sqrt, i, end)[a], RowLinks(ps, sqrt, i, end)[b])
    decreases end
  {
    if end > i + 1 {
      RowOrdered(ps, sqrt, i, end - 1);
      RowMembers(ps, sqrt, i, end - 1);
    }
  }

  lemma RowLinksExactly(ps: seq<Particle>, sqrt: real -> NonNeg, i: nat, end: nat)
    requires i < |ps| && end <= |ps|
    ensures forall l :: l in RowLinks(ps, sqrt, i, end) <==> l.i == i && l.j < end && Linked(ps, sqrt, l)
    ensures forall a, b :: 0 <= a < b < |RowLinks(ps, sqrt, i, end)| ==>
      Before(RowLinks(ps, sqrt, i, end)[a], RowLinks(ps, sqrt, i, end)[b])
  {
    RowMembers(ps, sqrt, i, end);
    RowOrdered(ps, sqrt, i, end);
  }

  /** The pass over rows 0 .. rows-1 draws exactly the linked pairs of
      those rows. */
  lemma {:induction false} LinksMembers(ps: seq<Particle>, sqrt: real -> NonNeg, rows: nat)
    requires rows <= |ps|
    ensures forall l :: l in Links(ps, sqrt, rows) <==> l.i < rows && Linked(ps, sqrt, l)
    decreases rows
  {
    if rows > 0 {
      LinksMembers(ps, sqrt, rows - 1);
      RowMembers(ps, sqrt, rows - 1, |ps|);
      var front := Links(ps, sqrt, rows - 1);
      var row := RowLinks(ps, sqrt, rows - 1, |ps|);
      assert Links(ps, sqrt, rows) == front + row;
      ConcatMembers(ps, sqrt, front, row, rows - 1);
    }
  }

  /** The linked pairs of rows before i followed by those of row i are the
      linked pairs of rows up to i. */
  lemma ConcatMembers(ps: seq<Particle>, sqrt: real -> NonNeg, front: seq<Line>, row: seq<Line>, i: nat)
    requires forall l :: l in front <==> l.i < i && Linked(ps, sqrt, l)
    requires forall l :: l in row <==> l.i == i && l.j < |ps| && Linked(ps, sqrt, l)
    ensures forall l :: l in front + row <==> l.i < i + 1 && Linked(ps, sqrt, l)
  {
    forall l: Line
      ensures l in front + row <==> l.i < i + 1 && Linked(ps, sqrt, l)
    {
      assert l in front + row <==> l in front || l in row;
    }
  }

  /** The pass over rows 0 .. rows-1 draws in (i, j) order. */
  lemma {:induction false} LinksOrdered(ps: seq<Particle>, sqrt: real -> NonNeg, rows: nat)
    requires rows <= |ps|
    ensures forall a, b :: 0 <= a < b < |Links(ps, sqrt, rows)| ==>
      Before(Links(ps, sqrt, rows)[a], Links(ps, sqrt, rows)[b])
    decreases rows
  {
    if rows > 0 {
      LinksOrdered(ps, sqrt, rows - 1);
      LinksRows(ps, sqrt, rows - 1);
      RowOrdered(ps, sqrt, rows - 1, |ps|);
      RowIndex(ps, sqrt, rows - 1, |ps|);
      var front := Links(ps, sqrt, rows - 1);
      var row := RowLinks(ps, sqrt, rows - 1, |ps|);
      assert Links(ps, sqrt, rows) == front + row;
      ConcatOrdered(front, row, rows - 1);
    }
  }

  /** Every line of rows 0 .. rows-1 belongs to one of those rows. */
  lemma LinksRows(ps: seq<Particle>, sqrt: real -> NonNeg, rows: nat)
    requires rows <= |ps|
    ensures forall l :: l in Links(ps, sqrt, rows) ==> l.i < rows
  {
    LinksMembers(ps, sqrt, rows);
  }

  /** Every line of row i belongs to row i. */
  lemma RowIndex(ps: seq<Particle>, sqrt: real -> NonNeg, i: nat, end: nat)
    requires i < |ps| && end <= |ps|
    ensures forall l :: l in RowLinks(ps, sqrt, i, end) ==> l.i == i
  {
    RowMembers(ps, sqrt, i, end);
  }

  lemma LinksExactly(ps: seq<Particle>, sqrt: real -> NonNeg, rows: nat)
    requires rows <= |ps|
    ensures forall l :: l in Links(ps, sqrt, rows) <==> l.i < rows && Linked(ps, sqrt, l)
    ensures forall a, b :: 0 <= a < b < |Links(ps, sqrt, rows)| ==>
      Before(Links(ps, sqrt, rows)[a], Links(ps, sqrt, rows)[b])
  {
    LinksMembers(ps, sqrt, rows);
    LinksOrdered(ps, sqrt, rows);
  }

  /** Lines of rows before i, in order, followed by lines of row i, in
      order, are in order. */
  lemma ConcatOrdered(front: seq<Line>, row: seq<Line>, i: nat)
    requires forall a, b :: 0 <= a < b < |front| ==> Before(front[a], front[b])
    requires forall a, b :: 0 <= a < b < |row| ==> Before(row[a], row[b])
    requires forall l :: l in front ==> l.i < i
    requires forall l :: l in row ==> l.i == i
    ensures forall a, b :: 0 <= a < b < |front + row| ==> Before((front + row)[a], (front + row)[b])
  {
    var all := front + row;
    forall a, b | 0 <= a < b < |all|
      ensures Before(all[a], all[b])
    {
      if b < |front| {
      } else if a >= |front| {
        assert all[a] == row[a - |front|] && all[b] == row[b - |front|];
      } else {
        assert all[a] in front;
        assert all[b] == row[b - |front|];
        assert all[b] in row;
      }
    }
  }

  /** The connection pass draws a line for exactly the pairs i < j closer
      than 120, with opacity `(1 - d/120) * 0.15`, each pair once and in
      (i, j) order; every drawn opacity lies in (0, 0.15]. */
  lemma ConnectionsExactly(ps: seq<Particle>, sqrt: real -> NonNeg)
    ensures forall l :: l in Connections(ps, sqrt) <==> Linked(ps, sqrt, l)
    ensures forall a, b :: 0 <= a < b < |Connections(ps, sqrt)| ==>
      Before(Connections(ps, sqrt)[a], Connections(ps, sqrt)[b])
    ensures forall l :: l in Connections(ps, sqrt) ==> 0.0 < l.opacity <= 0.15
  {
    LinksExactly(ps, sqrt, |ps|);
  }

  /** Row i extended by partner j: the test of the pair (i, j) appended. */
  lemma RowStep(ps: seq<Particle>, sqrt: real -> NonNeg, i: nat, j: nat)
    requires i < j < |ps|
    ensures var d := Distance(ps[i], ps[j], sqrt);
      RowLinks(ps, sqrt, i, j + 1)
        == RowLinks(ps, sqrt, i, j) + (if d < LinkDistance then [Line(i, j, LinkOpacity(d))] else [])
  {
  }

  /** The distance tests of rows 0 .. i-1 out of n: row r tests its
      n - r - 1 later partners. */
  function PairsBefore(i: nat, n: nat): nat
    requires i <= n
    decreases i
  {
    if i == 0 then 0 else PairsBefore(i - 1, n) + (n - i)
  }

  /** The rows before i test i(2n - i - 1)/2 pairs; all n rows test
      n(n-1)/2. */
  lemma {:induction false} PairsBeforeClosed(i: nat, n: nat)
    requires i <= n
    ensures 2 * PairsBefore(i, n) == i * (2 * n - i - 1)
    decreases i
  {
    if i > 0 {
      PairsBeforeClosed(i - 1, n);
      assert i * (2 * n - i - 1) == (i - 1) * (2 * n - (i - 1) - 1) + 2 * (n - i);
    }
  }

  /** The inner loop of `connectParticles()` for particle i: tests every
      later partner in order and counts the tests. */
  method ConnectRow(ps: seq<Particle>, sqrt: real -> NonNeg, i: nat) returns (row: seq<Line>, checks: nat)
    requires i < |ps|
    ensures row == RowLinks(ps, sqrt, i, |ps|)
    ensures checks == |ps| - i - 1
  {
    row := [];
    checks := 0;
    var j := i + 1;
    while j < |ps|
      invariant i + 1 <= j <= |ps|
      invariant row == RowLinks(ps, sqrt, i, j)
      invariant checks == j - i - 1
    {
      RowStep(ps, sqrt, i, j);
      var d := Distance(ps[i], ps[j], sqrt);
      if d < LinkDistance {
        row := row + [Line(i, j, LinkOpacity(d))];
      }
      checks := checks + 1;
      j := j + 1;
    }
  }

  /** `connectParticles()`, with the two nested loops of the source; `checks`
      counts the distance tests, n(n-1)/2 of them. */
  method ConnectParticles(ps: seq<Particle>, sqrt: real -> NonNeg) returns (lines: seq<Line>, checks: nat)
    ensures lines == Connections(ps, sqrt)
    ensures 2 * checks == |ps| * (|ps| - 1)
  {
    var n := |ps|;
    lines := [];
    checks := 0;
    var i := 0;
    while i < n
      invariant 0 <= i <= n
      invariant lines == Links(ps, sqrt, i)
      invariant checks == PairsBefore(i, n)
    {
      var row, tests := ConnectRow(ps, sqrt, i);
      assert Links(ps, sqrt, i + 1) == lines + row;
      lines := lines + row;
      checks := checks + tests;
      i := i + 1;
    }
    PairsBeforeClosed(n, n);
  }

  /** Every particle's `update(mouse)` on the current canvas. */
  function UpdateAll(s: System, host: Host): (ps: seq<Particle>)
    requires s.Live?
    ensures |ps| == |s.particles|
    ensures forall k :: 0 <= k < |ps| ==>
      0.0 <= ps[k].baseX <= s.width as real && 0.0 <= ps[k].baseY <= s.height as real
    ensures forall k :: 0 <= k < |ps| ==>
      Settled(s.particles[k], s.width, s.height) ==> Settled(ps[k], s.width, s.height)
    ensures forall k :: 0 <= k < |ps| ==>
      ps[k] == Update(s.particles[k], s.mouse, s.width, s.height, host.sqrt, host.heading)
  {
    seq(|s.particles|, k requires 0 <= k < |s.particles| =>
      Update(s.particles[k], s.mouse, s.width, s.height, host.sqrt, host.heading))
  }

  /** The system invariant: paired pointer coordinates, a population that is
      empty or exactly the count for the canvas, and every particle inside
      its attribute ranges with its home on the canvas. */
  ghost predicate Wf(s: System)
  {
    s.Live? ==>
      && Paired(s.mouse)
      && (|s.particles| == 0 || |s.particles| == ParticleCount(s.width, s.height))
      && forall k :: 0 <= k < |s.particles| ==> Settled(s.particles[k], s.width, s.height)
  }

  /** `animate()`: when a frame runs, every particle is updated, the updated
      positions are connected, and the next frame is requested. */
  function Animate(s: System, host: Host): (r: (System, seq<Line>))
    ensures !s.Live? || !s.looping ==> r == (s, [])
    ensures s.Live? ==> r.0.Live? && |r.0.particles| == |s.particles|
    ensures s.Live? ==> r.0.(particles := s.particles) == s
    ensures s.Live? && s.looping ==> forall k :: 0 <= k < |s.particles| ==>
      r.0.particles[k] == Update(s.particles[k], s.mouse, s.width, s.height, host.sqrt, host.heading)
    ensures s.Live? && s.looping ==> r.1 == Connections(r.0.particles, host.sqrt)
    ensures Wf(s) ==> Wf(r.0)
  {
    if s.Live? && s.looping then
      var ps := UpdateAll(s, host);
      (s.(particles := ps), Connections(ps, host.sqrt))
    else (s, [])
  }

  /** The `resize()` and `createParticles()` steps of `init` on a fresh
      system: the canvas takes the window size and gains its population. */
  function Populate(innerWidth: nat, innerHeight: nat, rand: nat -> Draws): (r: System)
    ensures r.Live? && r.width == innerWidth && r.height == innerHeight
    ensures |r.particles| == ParticleCount(innerWidth, innerHeight)
    ensures r.mouse == Mouse(None, None)
    ensures Wf(r)
    ensures forall k :: 0 <= k < |r.particles| ==> r.particles[k] == Spawn(innerWidth, innerHeight, rand(k))
  {
    var created := Live(0, 0, [], Mouse(None, None), false);
    var sized := Resize(created, innerWidth, innerHeight, rand);
    assert sized.particles == [];
    CreateParticles(sized, rand)
  }

  /** A populated system whose animation loop has been requested: the state
      `init` hands to its first `animate()`. */
  function Started(innerWidth: nat, innerHeight: nat, rand: nat -> Draws): (r: System)
    ensures r.Live? && r.looping && r.width == innerWidth && r.height == innerHeight
    ensures |r.particles| == ParticleCount(innerWidth, innerHeight)
    ensures r.mouse == Mouse(None, None)
    ensures Wf(r)
    ensures forall k :: 0 <= k < |r.particles| ==> r.particles[k] == Spawn(innerWidth, innerHeight, rand(k))
  {
    var populated := Populate(innerWidth, innerHeight, rand);
    populated.(looping := true)
  }

  /** `new ParticleSystem('particle-canvas')`: without the canvas nothing
      happens; otherwise `init` resizes, creates the population, and runs
      the first frame at once. */
  function Construct(canvasPresent: bool, innerWidth: nat, innerHeight: nat,
                     rand: nat -> Draws, host: Host): (r: System)
    ensures !canvasPresent <==> r.Inert?
    ensures r.Live? ==> r.width == innerWidth && r.height == innerHeight && r.looping
    ensures r.Live? ==> |r.particles| == ParticleCount(innerWidth, innerHeight)
    ensures r.Live? ==> r.mouse == Mouse(None, None)
    ensures r.Live? ==> forall k :: 0 <= k < |r.particles| ==>
      r.particles[k] == Update(Spawn(innerWidth, innerHeight, rand(k)), Mouse(None, None),
                               innerWidth, innerHeight, host.sqrt, host.heading)
    ensures Wf(r)
  {
    if !canvasPresent then Inert
    else
      var started := Started(innerWidth, innerHeight, rand);
      assert started.mouse == Mouse(None, None) && started.width == innerWidth && started.height == innerHeight;
      Animate(started, host).0
  }

  /** What the window and the frame loop deliver to the system. */
  datatype Event =
    | MouseMove(clientX: real, clientY: real)
    | MouseLeave
    | WindowResize(innerWidth: nat, innerHeight: nat, rand: nat -> Draws)
    | TouchMove(touches: seq<(real, real)>)
    | TouchEnd
    | Frame
    | Destroy

  /** The listeners of `bindEvents`, the frame callback and `destroy()`. An
      inert system registered no listener and has no frame. */
  function Handle(s: System, e: Event, host: Host): (r: System)
    ensures s.Inert? ==> r == s
    ensures s.Live? ==> r.Live?
    ensures s.Live? && e.MouseMove? ==> r.mouse == Mouse(Some(e.clientX), Some(e.clientY))
    ensures s.Live? && (e.MouseLeave? || e.TouchEnd?) ==> r.mouse == Mouse(None, None)
    ensures s.Live? && e.TouchMove? && |e.touches| > 0 ==>
      r.mouse == Mouse(Some(e.touches[0].0), Some(e.touches[0].1))
    ensures s.Live? && e.TouchMove? && |e.touches| == 0 ==> r == s
    ensures s.Live? && e.Destroy? ==> r == s.(looping := false)
    ensures s.Live? && !e.Frame? && !e.WindowResize? ==> r.particles == s.particles
    ensures s.Live? && !e.Destroy? ==> r.looping == s.looping
    ensures s.Live? && !e.WindowResize? ==> r.width == s.width && r.height == s.height
    ensures s.Live? && e.WindowResize? ==>
      && r.width == e.innerWidth && r.height == e.innerHeight && r.mouse == s.mouse
      && (|s.particles| > 0 ==> |r.particles| == ParticleCount(e.innerWidth, e.innerHeight))
      && (|s.particles| == 0 ==> r.particles == [])
    ensures s.Live? && e.WindowResize? && |s.particles| > 0 ==>
      forall k :: 0 <= k < |r.particles| ==> r.particles[k] == Spawn(e.innerWidth, e.innerHeight, e.rand(k))
    ensures s.Live? && e.Frame? ==> r.mouse == s.mouse && (!s.looping ==> r == s)
    ensures s.Live? && e.Frame? && s.looping ==>
      && |r.particles| == |s.particles|
      && forall k :: 0 <= k < |s.particles| ==> r.particles[k] == Update(s.particles[k], s.mouse, s.width, s.height, host.sqrt, host.heading)
    ensures Wf(s) ==> Wf(r)
  {
    match s
    case Inert => s
    case Live(_, _, _, _, _) =>
      match e
      case MouseMove(cx, cy) => s.(mouse := Mouse(Some(cx), Some(cy)))
      case MouseLeave => s.(mouse := Mouse(None, None))
      case WindowResize(w, h, rand) => Resize(s, w, h, rand)
      case TouchMove(touches) =>
        if |touches| > 0 then s.(mouse := Mouse(Some(touches[0].0), Some(touches[0].1))) else s
      case TouchEnd => s.(mouse := Mouse(None, None))
      case Frame => Animate(s, host).0
      case Destroy => s.(looping := false)
  }

  function Run(s: System, events: seq<Event>, host: Host): System
    decreases |events|
  {
    if |events| == 0 then s else Run(Handle(s, events[0], host), events[1..], host)
  }

  /** The invariant holds after any sequence of events. */
  lemma {:induction false} RunWf(s: System, events: seq<Event>, host: Host)
    requires Wf(s)
    ensures Wf(Run(s, events, host))
    decreases |events|
  {
    if |events| > 0 {
      RunWf(Handle(s, events[0], host), events[1..], host);
    }
  }

  /** A live system with no particles never gains any: `resize` only
      rebuilds a non-empty population and nothing else creates particles. */
  lemma {:induction false} EmptyStaysEmpty(s: System, events: seq<Event>, host: Host)
    requires s.Live? && s.particles == []
    ensures Run(s, events, host).Live? && Run(s, events, host).particles == []
    decreases |events|
  {
    if |events| > 0 {
      EmptyStaysEmpty(Handle(s, events[0], host), events[1..], host);
    }
  }

  /** Once destroyed, no frame runs again: the loop stays stopped under any
      later events. */
  lemma {:induction false} DestroyedStaysStopped(s: System, events: seq<Event>, host: Host)
    requires s.Live? && !s.looping
    ensures Run(s, events, host).Live? && !Run(s, events, host).looping
    decreases |events|
  {
    if |events| > 0 {
      DestroyedStaysStopped(Handle(s, events[0], host), events[1..], host);
    }
  }

  /** A frame with no pointer on the page moves every particle 2% of the way
      back to its home, never past it. */
  lemma FrameWithoutPointer(s: System, host: Host)
    requires s.Live? && s.looping && s.mouse.x.None?
    ensures var r := Animate(s, host).0;
      forall k :: 0 <= k < |s.particles| ==>
        && r.particles[k].x == s.particles[k].x + (s.particles[k].baseX - s.particles[k].x) * ReturnSpeed
        && r.particles[k].y == s.particles[k].y + (s.particles[k].baseY - s.particles[k].y) * ReturnSpeed
        && Between(r.particles[k].x, s.particles[k].x, s.particles[k].baseX)
        && Between(r.particles[k].y, s.particles[k].y, s.particles[k].baseY)
  {
    forall k | 0 <= k < |s.particles|
      ensures var q := Update(s.particles[k], s.mouse, s.width, s.height, host.sqrt, host.heading);
        && q.x == s.particles[k].x + (s.particles[k].baseX - s.particles[k].x) * ReturnSpeed
        && q.y == s.particles[k].y + (s.particles[k].baseY - s.particles[k].y) * ReturnSpeed
        && Between(q.x, s.particles[k].x, s.particles[k].baseX)
        && Between(q.y, s.particles[k].y, s.particles[k].baseY)
    {
      ReturnStep(s.particles[k], s.mouse, s.width, s.height, host.sqrt, host.heading);
    }
  }

  /** The page-level handle of `initParticles`/`destroyParticles`: a missing
      handle makes `destroyParticles` a no-op. */
  function DestroyParticles(h: Option<System>, host: Host): (r: Option<System>)
    ensures h.None? ==> r == h
    ensures h.Some? && h.value.Live? ==> r == Some(h.value.(looping := false))
    ensures h.Some? && h.value.Inert? ==> r == h
  {
    match h
    case None => None
    case Some(s) => Some(Handle(s, Destroy, host))
  }
}

=== FILE: text_reveal.dfy ===
/** The character split of `createTextReveal` (src/scripts/animations.js):
    the element's text becomes one hidden inline-block span per code unit. */
module TextReveal {
  import opened JsText

  /** A created `<span>`: its `textContent` and its inline `opacity` and
      `display` styles. */
  datatype Span = Span(content: JsString, opacity: JsString, display: JsString)

  const HiddenOpacity: JsString := Ascii("0")
  const InlineBlock: JsString := Ascii("inline-block")

  /** The unit a span shows: U+00A0 for a space, any other unit as it is. */
  function Shown(c: CodeUnit): (r: CodeUnit)
    ensures c == Space ==> r == Nbsp
    ensures c != Space ==> r == c
  {
    if c == Space then Nbsp else c
  }

  /** The spans `createTextReveal` leaves as the element's only children:
      `innerHTML = ''` discards what was there, then one span per unit of
      `text.split('')` is appended in order. */
  function Reveal(text: JsString): (spans: seq<Span>)
    ensures |spans| == |text|
    ensures forall k :: 0 <= k < |text| ==> spans[k].content == [Shown(text[k])]
    ensures forall k :: 0 <= k < |text| ==>
      spans[k].opacity == HiddenOpacity && spans[k].display == InlineBlock
    decreases |text|
  {
    if |text| == 0 then []
    else [Span([Shown(text[0])], HiddenOpacity, InlineBlock)] + Reveal(text[1..])
  }

  /** The element's `textContent` afterwards: its spans' texts in order. */
  function TextContent(spans: seq<Span>): JsString
    decreases |spans|
  {
    if |spans| == 0 then [] else spans[0].content + TextContent(spans[1..])
  }

  /** The text with every space made a no-break space. */
  function NoBreak(text: JsString): (r: JsString)
    ensures |r| == |text|
    ensures forall k :: 0 <= k < |text| ==> r[k] == Shown(text[k])
  {
    seq(|text|, k requires 0 <= k < |text| => Shown(text[k]))
  }

  /** No-break spaces back to spaces. */
  function Unbreak(text: JsString): (r: JsString)
    ensures |r| == |text|
    ensures forall k :: 0 <= k < |text| ==> r[k] == (if text[k] == Nbsp then Space else text[k])
  {
    seq(|text|, k requires 0 <= k < |text| => if text[k] == Nbsp then Space else text[k])
  }

  /** The revealed element reads as the original text with its spaces
      turned into no-break spaces. */
  lemma {:induction false} RevealText(text: JsString)
    ensures TextContent(Reveal(text)) == NoBreak(text)
    decreases |text|
  {
    if |text| > 0 {
      RevealText(text[1..]);
      var spans := Reveal(text);
      assert spans[1..] == Reveal(text[1..]);
      assert NoBreak(text) == [Shown(text[0])] + NoBreak(text[1..]);
    }
  }

  /** A text without no-break spaces of its own is recovered from the
      revealed element; one that has them is not, since an original U+00A0
      and a replaced space look alike. */
  lemma RevealRoundTrip(text: JsString)
    ensures Nbsp !in text ==> Unbreak(TextContent(Reveal(text))) == text
    ensures Nbsp in text ==> Unbreak(TextContent(Reveal(text))) != text
  {
    RevealText(text);
    if Nbsp in text {
      var k :| 0 <= k < |text| && text[k] == Nbsp;
      assert Unbreak(NoBreak(text))[k] == Space;
    }
  }
}

=== FILE: wrappers.dfy ===
/** Optional values: the model's reading of a JavaScript field or attribute
    that may hold `null` or `undefined`. */
module Wrappers {

  datatype Option<+T> = None | Some(value: T)
}
